=== FILE: README.md ===
# simple-parse-smtp-adapter: a Dafny model of the decision layer

`simple-parse-smtp-adapter` is a mail adapter for Parse Server. It has a factory that checks
the options it is given. It picks one of three nodemailer transports (OAuth2 Gmail, SMTP, or a
named service). It works out who receives a lifecycle email and in which locale to render it.
For a recipient at a blacklisted domain it resolves early with a skip message, but it still
hands the mail to the transport. It assembles `sendMail`, `sendMailWithTemplate`,
`sendPasswordResetEmail` and `sendVerificationEmail` out of those pieces.

This project models that decision layer as pure functions over immutable datatypes:

- `wrappers.dfy` (`Wrappers`): `Option` and `Result`.
- `js.dfy` (`Js`): the JavaScript semantics used. `Truthy` treats a string as true when it is defined and non-empty. `Or` is `||`. `Get` is `record.get(key)` on a Parse object, which is modelled as a map from attribute to string.
- `options.dfy` (`AdapterOptions`): the options object and the factory's check (`Validate`).
- `transport.dfy` (`Transport`): the transport `sendMail` selects.
- `recipient.dfy` (`Recipient`): `getUserEmail`.
- `locale.dfy` (`Locale`): `getUserLocale` and the normalisation of language names.
- `domain.dfy` (`Domain`): the recipient domain `to.split('@').pop()`. It is defined through the last '@', and proved equal to the last piece of an independent model of `split` (`DomainIsLastPiece`, with `SplitJoin` and `SplitPiecesAvoidSeparator`).
- `dispatch.dfy` (`Dispatch`): envelope assembly, the blacklist check, and how the promise settles.
- `templated.dfy` (`Templated`): `renderTemplate`'s request, `sendMailWithTemplate` and the two lifecycle emails.

The outside world is passed in as parameters:

- The Parse user lookup is `find: Option<string> -> Option<Record>`. Given the user's `email`, it returns the first stored user with that email, or nothing.
- The template engine is `render: RenderRequest -> Result<Bundle, string>`. A request names the template directory and, when i18n is configured, the locale installed as the engine's default. The function already holds the call's data. A bundle maps `html`, `text` and `subject` to rendered strings.
- The transport's callback result is `reply: Result<string, string>`, an info value or an error.

A send returns the settled promise (`Resolved` or `Rejected`) and the transport invocation it
made, if any. A templated send also returns the render request it made.

The blacklist check in `sendMail` is modelled as written. The comment at index.js line 190
says emails to blacklisted domains are skipped. But lines 196-200 resolve the promise with the
skip message and then fall through, so the selected transport is still invoked with the same
envelope. Its later reply cannot change a promise that has already settled (`SendMail`,
`BlacklistDoesNotSuppressTransport`, `SkipIgnoresReply`).

Some behaviour of the code that a reader might not expect:

- The rendered bundle is used by its plain keys only. `html` and `text` are always copied, so an undefined one stays undefined. The bundle's `subject` replaces the current subject only when it is truthy (index.js lines 231, 269-273 and 309-313).
- A truthy `emailField` is used with no fallback, so a user without that attribute gets `undefined` as the recipient (lines 85-87).
- The request locale used when resolving the locale is `data.locale` (line 113).

## Model

| member | source | states |
|---|---|---|
| AdapterOptions.Validate | index.js:8-23 | Missing options are refused. With service "OAuth2Gmail", the options are accepted iff service, type, user, fromAddress, clientId, clientSecret, refreshToken and accessToken are all defined. With "SMTP", iff user, password, host, secure and fromAddress are. Otherwise, iff user, password, service and fromAddress are. Each refusal carries that branch's error. |
| AdapterOptions.AcceptedOptionsHaveFromAddress | index.js:8-23 | Every accepted options object has a defined fromAddress. |
| AdapterOptions.MissingServiceIsRefused | index.js:19-22 | Options with no service are refused with the "choose a supported service" error. |
| AdapterOptions.UncheckedOptionsDoNotMatter | index.js:10-23 | port and expires never change the verdict. host does not change it for OAuth2 Gmail. |
| Transport.SelectTransport | index.js:180-188 | The OAuth2 transport is selected iff service is "OAuth2Gmail", the SMTP transport iff it is "SMTP", and the generic transport otherwise. |
| Transport.ValidationMatchesSelectedTransport | index.js:182-188 | Options are accepted iff every field required by the transport sendMail will select is defined. An accepted options object that selects the generic transport has a defined service that names neither other kind. |
| Recipient.GetUserEmail | index.js:82-90 | A truthy emailField gives exactly that attribute of the user, undefined included, with no fallback. Otherwise the result is email when truthy, else username. A defined result is always one of the user's attribute values. |
| Recipient.EmailFieldOverrides | index.js:85-87 | With emailField configured, users that agree on that attribute get the same address, whatever their email and username. |
| Recipient.OnlyEmailAndUsernameMatter | index.js:83 | Without emailField, only the email and username attributes affect the address. |
| Recipient.RecipientExamples | index.js:82-90 | workEmail overrides email. email is used when there is no override. An empty email falls back to username. An override attribute the user lacks gives undefined. |
| Locale.Normalize | index.js:106-120 | "english" becomes "en" and "french" becomes "fr". Any other name passes through verbatim. The result is never a name to be translated, and it is non-empty when the input is. |
| Locale.NormalizeIdempotent | index.js:106-120 | Normalising twice gives the same result as normalising once. |
| Locale.ConsultedRecord | index.js:96-103 | When the user has a language attribute, even an empty one, that user is consulted. When it has none, the stored record for the user's email is consulted. Without a user, no record is consulted. |
| Locale.GetUserLocale | index.js:92-124 | The consulted record's truthy language comes first, then a truthy request locale, each normalised, and "en" last. The result is never empty and never an untranslated name. |
| Locale.LocaleIsNormal | index.js:105-123 | The resolved locale is unchanged by normalisation. |
| Locale.UserLanguageWins | index.js:96-112 | A truthy user language decides the locale. The request locale and the user store are then irrelevant. |
| Locale.StoredLanguageUsed | index.js:96-112 | When the user lacks language, the language of the record the store returns is used. |
| Locale.LocaleExamples | index.js:105-123 | "french" beats the locale "de". "english" becomes "en". "de" passes through. With nothing, or with an empty language, the result is "en". |
| Domain.LastIndexOf | index.js:192 | Returns nothing iff the character does not occur. Otherwise it returns a position holding the character with no occurrence after it. |
| Domain.DomainOf | index.js:192 | The domain has no '@'. It is a suffix of the address, and it is either the whole address or directly preceded by '@'. |
| Domain.DomainUnique | index.js:192 | Any '@'-free suffix that is the whole address or follows an '@' is the domain, so the domain is exactly the text after the last '@'. |
| Domain.SplitJoin | index.js:192 | Joining the pieces of split back on the separator gives the original string. |
| Domain.SplitPiecesAvoidSeparator | index.js:192 | No piece of split contains the separator. |
| Domain.DomainIsLastPiece | index.js:192 | The domain equals the last piece of split on '@', which is what split('@').pop() returns. |
| Dispatch.BuildEnvelope | index.js:169-175 | The envelope is sent from fromAddress. Stripping the sender gives back exactly the to, subject, html and text that were passed in. |
| Dispatch.SendMail | index.js:168-212 | The transport is skipped iff a blacklist is configured and to is undefined, and the call then rejects. Otherwise the selected transport receives the unchanged mail from fromAddress. A listed domain resolves with the skip message. Otherwise the transport's reply settles the call. |
| Dispatch.BlacklistDoesNotSuppressTransport | index.js:190-207 | With a defined recipient, configuring a blacklist never changes whether or with what the transport is invoked. |
| Dispatch.SkipIgnoresReply | index.js:193-206 | For a blacklisted recipient the transport is still invoked. The settled value does not depend on its reply. |
| Dispatch.BlacklistExample | index.js:190-197 | "user@blocked.com" with "blocked.com" listed resolves with the skip message for that address and domain. |
| Templated.RenderRequestFor | index.js:133-149 | The requested template is the one given. A locale is installed iff i18n is configured. That locale is the resolved user locale and is never empty. |
| Templated.FromBundle | index.js:228-233 | html and text come from the bundle. The subject is the bundle's when truthy, otherwise the fallback. |
| Templated.SendMailWithTemplate | index.js:219-249 | Without a truthy template, the call rejects with TemplateNotSpecified and nothing is rendered or sent. With one, it renders the template with the resolved locale. A render failure rejects without a transport call. A successful render sends the bundle's mail to data.to from fromAddress, and the call settles as sendMail does on that mail. |
| Templated.SendLifecycleEmail | index.js:256-327 | Without a template for the event, the link is sent as text to the user's address under the default subject, with no html. With one, that template is rendered for the user. A failure rejects. A success sends the bundle with the configured subject as fallback. |
| Templated.SendPasswordResetEmail | index.js:256-288 | Without a reset template, the call settles as sendMail on the link as text to the user's address, titled "Reset Password", with no html. With one, the configured template is rendered in the resolved locale. A render failure rejects without a transport call. A rendered bundle is sent as sendMail would, with the bundle's html and text and its truthy subject, else the configured subject. |
| Templated.SendVerificationEmail | index.js:295-327 | Without a verification template, the call settles as sendMail on the link as text to the user's address, titled "Verify Email", with no html. With one, the configured template is rendered in the resolved locale. A render failure rejects without a transport call. A rendered bundle is sent as sendMail would, with the bundle's html and text and its truthy subject, else the configured subject. |
| Templated.LifecycleIsTemplatedSend | index.js:262-276 | With a template configured, and for a template engine that renders the same bundle for both calls' data, a lifecycle email behaves exactly like sendMailWithTemplate. Its recipient is the user's address, its subject the configured subject, and its template the configured template. |
| Templated.EveryMessageIsFromConfiguredAddress | index.js:174 | Once the options are accepted, every message the lifecycle and templated sends hand to a transport is from the defined fromAddress. |
| Templated.PasswordResetExample | index.js:283-287 | With no templates and no blacklist, a reset with link "http://reset" is delivered with that text and subject "Reset Password". |

## Left out

- Transport construction (index.js lines 28-73) is nodemailer option plumbing. Two quirks in it are not modelled: the access token is set from `refreshToken` at line 39, and the second `tls` key at line 58 replaces the first.
- Delivery itself is not modelled. It is nodemailer network I/O, so the transport's reply is a parameter.
- The template engine (email-templates) is a black box. Its output is a parameter.
- The Parse user query at lines 97-100 is datastore I/O, so it is an injected lookup. A query that fails is not modelled.
- The write of the locale into the shared `adapterOptions.i18n.defaultLocale` (line 143) is not modelled. It is shared mutable state across asynchronous calls. The locale only appears in the render request.
- Promises, `console.log` and `console.error` are not modelled. A send's result is its settled value.
- The text of the TypeError raised by reading `to.split` on an undefined `to` is not modelled. That comes from the JavaScript runtime.
- AdapterOptions.Validate: every option is `Option<string>`, so JavaScript `null` is not separated from `undefined`. `_.isUndefined(null)` is false, so the source accepts a null field, and the model cannot express that case.
- Recipient.GetUserEmail: Parse attributes are modelled as strings. A non-string `email`, `username` or `language` is not modelled.
- Templated.SendLifecycleEmail: the user is always present, as Parse supplies it. The synchronous TypeError on a missing user is not modelled.

=== FILE: dispatch.dfy ===
/** Envelope assembly, transport selection and the blacklist check of `sendMail`
    (index.js lines 168-212). */
module Dispatch {
  import opened Wrappers
  import opened AdapterOptions
  import opened Transport
  import opened Domain

  /** What a caller asks `sendMail` to deliver. */
  datatype Mail = Mail(to: Option<string>, subject: Option<string>, html: Option<string>, text: Option<string>)

  /** The options handed to the transport: the mail plus the sender address. */
  datatype Envelope = Envelope(
    to: Option<string>, from: Option<string>,
    subject: Option<string>, html: Option<string>, text: Option<string>)

  /** Why a send's promise rejects. */
  datatype SendError =
    | MissingRecipient          // the blacklist check read `to.split` of an undefined `to`
    | TransportFailed(error: string)
    | RenderFailed(error: string)
    | TemplateNotSpecified
  {
    function Message(): Option<string>
    {
      match this
      case TemplateNotSpecified => Some("Template variable not specified")
      case TransportFailed(e) => Some(e)
      case RenderFailed(e) => Some(e)
      case MissingRecipient => None
    }
  }

  /** How a send's promise settles: the first `resolve` or `reject` wins. */
  datatype Settlement = Resolved(value: string) | Rejected(error: SendError)

  /** One invocation of a transport's `sendMail`. */
  datatype TransportCall = TransportCall(transport: TransportKind, envelope: Envelope)

  /** The settled promise, and the transport invocation the send made, if any. */
  datatype SendOutcome = SendOutcome(settled: Settlement, call: Option<TransportCall>)

  /** The mail an envelope carries, forgetting the sender. */
  function Payload(e: Envelope): Mail
  {
    Mail(e.to, e.subject, e.html, e.text)
  }

  /** The transport options for `m`: the mail unchanged, sent from the configured address. */
  function BuildEnvelope(o: Options, m: Mail): (e: Envelope)
    ensures e.from == o.fromAddress
    ensures Payload(e) == m
  {
    Envelope(m.to, o.fromAddress, m.subject, m.html, m.text)
  }

  /** The message logged and resolved for a blacklisted recipient. */
  function SkipMessage(to: string, domain: string): string
  {
    "Skipped sending email to " + to + " as domain " + domain + " is blacklisted."
  }

  /** A blacklist is configured, the recipient is defined, and its domain is listed. */
  predicate IsBlacklisted(o: Options, to: Option<string>)
  {
    o.blacklistedDomains.Some? && to.Some? && DomainOf(to.value) in o.blacklistedDomains.value
  }

  /** How the transport's callback settles the promise: `info` resolves, `error` rejects. */
  function Settle(reply: Result<string, string>): Settlement
  {
    match reply
    case Success(info) => Resolved(info)
    case Failure(e) => Rejected(TransportFailed(e))
  }

  /** `sendMail`: selects the transport, runs the blacklist check, then invokes the transport.
      The check resolves with the skip message but does not return, so the transport is still
      invoked and its reply, arriving later, no longer changes the settled promise. `reply` is what
      the transport reports when invoked. */
  function SendMail(o: Options, m: Mail, reply: Result<string, string>): (r: SendOutcome)
    ensures r.call.None? <==> o.blacklistedDomains.Some? && m.to.None?
    ensures r.call.None? ==> r.settled == Rejected(MissingRecipient)
    ensures r.call.Some? ==> r.call.value.transport == SelectTransport(o)
    ensures r.call.Some? ==> r.call.value.envelope.from == o.fromAddress && Payload(r.call.value.envelope) == m
    ensures IsBlacklisted(o, m.to) ==> r.settled == Resolved(SkipMessage(m.to.value, DomainOf(m.to.value)))
    ensures r.call.Some? && !IsBlacklisted(o, m.to) ==> r.settled == Settle(reply)
  {
    var call := TransportCall(SelectTransport(o), BuildEnvelope(o, m));
    match o.blacklistedDomains
    case None => SendOutcome(Settle(reply), Some(call))
    case Some(domains) =>
      match m.to
      case None => SendOutcome(Rejected(MissingRecipient), None)
      case Some(to) =>
        var domain := DomainOf(to);
        if domain in domains then SendOutcome(Resolved(SkipMessage(to, domain)), Some(call))
        else SendOutcome(Settle(reply), Some(call))
  }

  /** The blacklist only changes how the promise settles: with a defined recipient, the transport
      is invoked with the same envelope whether or not a blacklist is configured. */
  lemma BlacklistDoesNotSuppressTransport(o: Options, m: Mail, reply: Result<string, string>, domains: seq<string>)
    requires m.to.Some?
    ensures SendMail(o.(blacklistedDomains := Some(domains)), m, reply).call
         == SendMail(o.(blacklistedDomains := None), m, reply).call
  {
  }

  /** For a blacklisted recipient the transport's reply is irrelevant: the skip message has
      already settled the promise, even if delivery then fails. */
  lemma SkipIgnoresReply(o: Options, m: Mail, r1: Result<string, string>, r2: Result<string, string>)
    requires IsBlacklisted(o, m.to)
    ensures SendMail(o, m, r1).settled == SendMail(o, m, r2).settled
    ensures SendMail(o, m, r1).call.Some?
  {
  }

  /** "user@blocked.com", with "blocked.com" listed, resolves with the skip message naming that
      address and domain, and the transport is still invoked. */
  lemma BlacklistExample(o: Options, reply: Result<string, string>)
    requires o.blacklistedDomains == Some(["blocked.com"])
    ensures var m := Mail(Some("user@blocked.com"), None, None, None);
      SendMail(o, m, reply).settled == Resolved(SkipMessage("user@blocked.com", "blocked.com"))
      && SendMail(o, m, reply).call.Some?
  {
    var to := "user@blocked.com";
    DomainUnique(to, "blocked.com");
  }
}

=== FILE: domain.dfy ===
/** The domain a recipient address belongs to, as `to.split('@').pop()` computes it
    (index.js line 192). */
module Domain {
  import opened Wrappers

  /** The position of the last occurrence of `c` in `s`, if any. */
  function LastIndexOf(s: string, c: char): (r: Option<nat>)
    ensures r.None? <==> c !in s
    ensures r.Some? ==> r.value < |s| && s[r.value] == c && c !in s[r.value + 1..]
    decreases |s|
  {
    if |s| == 0 then None
    else if s[|s| - 1] == c then Some(|s| - 1)
    else
      var init := s[..|s| - 1];
      assert s == init + [s[|s| - 1]];
      var r := LastIndexOf(init, c);
      assert r.Some? ==> s[r.value + 1..] == init[r.value + 1..] + [s[|s| - 1]];
      r
  }

  /** The text after the last '@' of an address, or the whole address when it has none. */
  function DomainOf(address: string): (d: string)
    ensures '@' !in d
    ensures |d| <= |address| && address[|address| - |d|..] == d
    ensures |d| == |address| || address[|address| - |d| - 1] == '@'
  {
    match LastIndexOf(address, '@')
    case None => address
    case Some(i) => address[i + 1..]
  }

  /** The domain is the one '@'-free suffix of the address that is either the whole address or
      directly preceded by an '@'. */
  lemma DomainUnique(address: string, d: string)
    requires '@' !in d
    requires |d| <= |address| && address[|address| - |d|..] == d
    requires |d| == |address| || address[|address| - |d| - 1] == '@'
    ensures DomainOf(address) == d
  {
    var e := DomainOf(address);
    var n := |address|;
    forall k | n - |d| <= k < n
      ensures address[k] != '@'
    {
      assert address[k] == d[k - (n - |d|)];
    }
    forall k | n - |e| <= k < n
      ensures address[k] != '@'
    {
      assert address[k] == e[k - (n - |e|)];
    }
    assert |e| >= |d|;
    assert |d| >= |e|;
  }

  /** JavaScript's `s.split(c)`: the pieces of `s` between occurrences of `c`, scanning from the
      end, so that a trailing `c` opens a new, empty, piece. */
  function Split(s: string, c: char): (pieces: seq<string>)
    ensures |pieces| >= 1
    decreases |s|
  {
    if |s| == 0 then [""]
    else
      var init := Split(s[..|s| - 1], c);
      if s[|s| - 1] == c then init + [""]
      else init[..|init| - 1] + [init[|init| - 1] + [s[|s| - 1]]]
  }

  /** `pieces.join(c)`: the inverse of `Split`. */
  function Join(pieces: seq<string>, c: char): string
    requires |pieces| >= 1
  {
    if |pieces| == 1 then pieces[0]
    else Join(pieces[..|pieces| - 1], c) + [c] + pieces[|pieces| - 1]
  }

  /** The last element of a non-empty sequence: what `pop()` returns. */
  function Last<T>(xs: seq<T>): T
    requires |xs| >= 1
  {
    xs[|xs| - 1]
  }

  /** Joining with an extra empty last piece appends one separator. */
  lemma JoinAppendsSeparator(ps: seq<string>, c: char)
    requires |ps| >= 1
    ensures Join(ps + [""], c) == Join(ps, c) + [c]
  {
    assert (ps + [""])[..|ps|] == ps;
  }

  /** Joining after extending the last piece by `x` appends `x`. */
  lemma JoinExtendsLastPiece(ps: seq<string>, x: char, c: char)
    requires |ps| >= 1
    ensures Join(ps[..|ps| - 1] + [ps[|ps| - 1] + [x]], c) == Join(ps, c) + [x]
  {
    var p := ps[..|ps| - 1] + [ps[|ps| - 1] + [x]];
    if |ps| > 1 {
      assert p[..|p| - 1] == ps[..|ps| - 1];
    }
  }

  /** Splitting and joining back on the same separator gives the original string. */
  lemma {:induction false} SplitJoin(s: string, c: char)
    ensures Join(Split(s, c), c) == s
    decreases |s|
  {
    if |s| > 0 {
      var t := s[..|s| - 1];
      SplitJoin(t, c);
      var init := Split(t, c);
      if s[|s| - 1] == c {
        assert Split(s, c) == init + [""];
        JoinAppendsSeparator(init, c);
      } else {
        assert Split(s, c) == init[..|init| - 1] + [init[|init| - 1] + [s[|s| - 1]]];
        JoinExtendsLastPiece(init, s[|s| - 1], c);
      }
      assert s == t + [s[|s| - 1]];
    }
  }

  /** No piece of a split contains the separator. */
  lemma {:induction false} SplitPiecesAvoidSeparator(s: string, c: char)
    ensures forall i :: 0 <= i < |Split(s, c)| ==> c !in Split(s, c)[i]
    decreases |s|
  {
    if |s| > 0 {
      var t := s[..|s| - 1];
      var x := s[|s| - 1];
      SplitPiecesAvoidSeparator(t, c);
      var init := Split(t, c);
      if x != c {
        assert forall i :: 0 <= i < |init| - 1 ==> Split(s, c)[i] == init[i];
      } else {
        assert forall i :: 0 <= i < |init| ==> Split(s, c)[i] == init[i];
      }
    }
  }

  /** A last character other than the separator extends the last piece of the split of the rest. */
  lemma LastPieceGrows(s: string, c: char)
    requires |s| > 0 && s[|s| - 1] != c
    ensures Last(Split(s, c)) == Last(Split(s[..|s| - 1], c)) + [s[|s| - 1]]
  {
  }

  /** A last character other than '@' extends the domain of the rest. */
  lemma DomainGrows(s: string)
    requires |s| > 0 && s[|s| - 1] != '@'
    ensures DomainOf(s) == DomainOf(s[..|s| - 1]) + [s[|s| - 1]]
  {
    var t := s[..|s| - 1];
    assert LastIndexOf(s, '@') == LastIndexOf(t, '@');
    match LastIndexOf(t, '@')
    case None =>
      assert s == t + [s[|s| - 1]];
    case Some(i) =>
      assert s[i + 1..] == t[i + 1..] + [s[|s| - 1]];
  }

  /** A trailing '@' leaves both the domain and the last piece of the split empty. */
  lemma TrailingAtEmpties(s: string)
    requires |s| > 0 && s[|s| - 1] == '@'
    ensures DomainOf(s) == ""
    ensures Last(Split(s, '@')) == ""
  {
    assert LastIndexOf(s, '@') == Some(|s| - 1);
  }

  /** The domain is the last piece of `address.split('@')`. */
  lemma {:induction false} DomainIsLastPiece(address: string)
    ensures DomainOf(address) == Last(Split(address, '@'))
    decreases |address|
  {
    if |address| > 0 {
      DomainIsLastPiece(address[..|address| - 1]);
      if address[|address| - 1] == '@' {
        TrailingAtEmpties(address);
      } else {
        LastPieceGrows(address, '@');
        DomainGrows(address);
      }
    }
  }
}

=== FILE: js.dfy ===
/** The fragment of JavaScript value semantics the adapter relies on.
    A property that may be missing is an `Option<string>`; `None` is `undefined`. */
module Js {
  import opened Wrappers

  /** Truthiness of a possibly-undefined string: defined and non-empty. */
  predicate Truthy(v: Option<string>)
  {
    v.Some? && |v.value| > 0
  }

  /** The value of `a || b`: the left operand when it is truthy, otherwise the right one. */
  function Or(a: Option<string>, b: Option<string>): (r: Option<string>)
    ensures Truthy(r) <==> Truthy(a) || Truthy(b)
    ensures r == a || r == b
  {
    if Truthy(a) then a else b
  }

  /** A Parse object seen through its `get` accessor: a map from attribute name to value. */
  type Record = map<string, string>

  /** The attribute holding a Parse user's email address. */
  const EmailAttribute := "email"

  /** `record.get(key)`: the attribute's value, or `undefined` when the record has none. */
  function Get(rec: Record, key: string): (r: Option<string>)
    ensures r.Some? <==> key in rec
    ensures r.Some? ==> r.value == rec[key]
  {
    if key in rec then Some(rec[key]) else None
  }
}

=== FILE: locale.dfy ===
/** The locale a templated message is rendered in (`getUserLocale`, index.js lines 92-124). */
module Locale {
  import opened Wrappers
  import opened Js

  const LanguageAttribute := "language"
  const DefaultLocale := "en"

  /** The language names the adapter translates into locale codes. */
  const Vocabulary: map<string, string> := map["english" := "en", "french" := "fr"]

  /** A language name as a locale code: names in the vocabulary are translated, anything else
      passes through verbatim. The result is never itself a name the vocabulary translates. */
  function Normalize(lang: string): (r: string)
    ensures lang in Vocabulary ==> r == Vocabulary[lang]
    ensures lang !in Vocabulary ==> r == lang
    ensures r !in Vocabulary
    ensures |lang| > 0 ==> |r| > 0
  {
    if lang == "english" then "en"
    else if lang == "french" then "fr"
    else lang
  }

  /** Normalizing twice is normalizing once. */
  lemma NormalizeIdempotent(lang: string)
    ensures Normalize(Normalize(lang)) == Normalize(lang)
  {
  }

  /** The user record whose `language` is consulted: the request's user when it carries a
      `language` attribute (even an empty one), otherwise the record the user store returns for
      that user's `email`, and nothing when the request has no user. */
  function ConsultedRecord(user: Option<Record>, find: Option<string> -> Option<Record>): (r: Option<Record>)
    ensures user.None? ==> r.None?
    ensures user.Some? && LanguageAttribute in user.value ==> r == user
    ensures user.Some? && LanguageAttribute !in user.value ==> r == find(Get(user.value, EmailAttribute))
  {
    if user.Some? && Get(user.value, LanguageAttribute).None? then find(Get(user.value, EmailAttribute))
    else if user.Some? then user
    else None
  }

  /** The effective locale: the consulted record's truthy `language`, else the request's truthy
      `locale`, each normalized, else "en". */
  function GetUserLocale(user: Option<Record>, locale: Option<string>, find: Option<string> -> Option<Record>): (r: string)
    ensures |r| > 0
    ensures r !in Vocabulary
    ensures var rec := ConsultedRecord(user, find);
      rec.Some? && Truthy(Get(rec.value, LanguageAttribute)) ==> r == Normalize(rec.value[LanguageAttribute])
    ensures var rec := ConsultedRecord(user, find);
      !(rec.Some? && Truthy(Get(rec.value, LanguageAttribute))) && Truthy(locale) ==> r == Normalize(locale.value)
    ensures var rec := ConsultedRecord(user, find);
      !(rec.Some? && Truthy(Get(rec.value, LanguageAttribute))) && !Truthy(locale) ==> r == DefaultLocale
  {
    var userData := ConsultedRecord(user, find);
    if userData.Some? && Truthy(Get(userData.value, LanguageAttribute)) then
      Normalize(userData.value[LanguageAttribute])
    else if Truthy(locale) then
      Normalize(locale.value)
    else
      DefaultLocale
  }

  /** The resolved locale is already normal: normalizing it again changes nothing. */
  lemma LocaleIsNormal(user: Option<Record>, locale: Option<string>, find: Option<string> -> Option<Record>)
    ensures Normalize(GetUserLocale(user, locale, find)) == GetUserLocale(user, locale, find)
  {
  }

  /** A truthy `language` on the request's user beats the request `locale`, and the user store
      is then never consulted. */
  lemma UserLanguageWins(u: Record, l1: Option<string>, l2: Option<string>,
                         f1: Option<string> -> Option<Record>, f2: Option<string> -> Option<Record>)
    requires Truthy(Get(u, LanguageAttribute))
    ensures GetUserLocale(Some(u), l1, f1) == GetUserLocale(Some(u), l2, f2) == Normalize(u[LanguageAttribute])
  {
  }

  /** When the request's user has no `language`, the stored record's language is used instead. */
  lemma StoredLanguageUsed(u: Record, stored: Record, locale: Option<string>, find: Option<string> -> Option<Record>)
    requires LanguageAttribute !in u
    requires find(Get(u, EmailAttribute)) == Some(stored)
    requires Truthy(Get(stored, LanguageAttribute))
    ensures GetUserLocale(Some(u), locale, find) == Normalize(stored[LanguageAttribute])
  {
  }

  /** A user language "french" beats the request locale "de"; the locale "english" becomes "en";
      "de" passes through; with no language and no locale, or an empty language, the result is "en". */
  lemma LocaleExamples(find: Option<string> -> Option<Record>)
    ensures GetUserLocale(Some(map["language" := "french"]), Some("de"), find) == "fr"
    ensures GetUserLocale(None, Some("english"), find) == "en"
    ensures GetUserLocale(None, Some("de"), find) == "de"
    ensures GetUserLocale(None, None, find) == "en"
    ensures GetUserLocale(Some(map["language" := ""]), None, find) == "en"
  {
  }
}

=== FILE: options.dfy ===
/** The adapter's options object and the check the factory runs on it before
    building any transport (index.js lines 8-23). */
module AdapterOptions {
  import opened Wrappers

  /** `templates.resetPassword` / `templates.verifyEmail`: a template directory and a default subject. */
  datatype TemplateSpec = TemplateSpec(template: Option<string>, subject: Option<string>)

  /** `templates`: the per-event template settings, each of which may be missing. */
  datatype Templates = Templates(resetPassword: Option<TemplateSpec>, verifyEmail: Option<TemplateSpec>)

  /** The options object handed to the adapter factory. Connection values only matter by
      whether they are defined, so each is an `Option<string>`; `authType` is the option `type`.
      `blacklistedDomains` is the optional array of domains, `i18n` whether i18n settings are given. */
  datatype Options = Options(
    service: Option<string>,
    authType: Option<string>,
    user: Option<string>,
    password: Option<string>,
    host: Option<string>,
    port: Option<string>,
    secure: Option<string>,
    fromAddress: Option<string>,
    clientId: Option<string>,
    clientSecret: Option<string>,
    refreshToken: Option<string>,
    accessToken: Option<string>,
    expires: Option<string>,
    emailField: Option<string>,
    templates: Option<Templates>,
    blacklistedDomains: Option<seq<string>>,
    i18n: bool)

  /** The connection options whose presence the factory may check. */
  datatype Field =
    | Service | AuthType | User | Password | Host | Port | Secure
    | FromAddress | ClientId | ClientSecret | RefreshToken | AccessToken | Expires

  function FieldValue(o: Options, f: Field): Option<string>
  {
    match f
    case Service => o.service
    case AuthType => o.authType
    case User => o.user
    case Password => o.password
    case Host => o.host
    case Port => o.port
    case Secure => o.secure
    case FromAddress => o.fromAddress
    case ClientId => o.clientId
    case ClientSecret => o.clientSecret
    case RefreshToken => o.refreshToken
    case AccessToken => o.accessToken
    case Expires => o.expires
  }

  /** Every field of `fs` is defined in `o`. */
  predicate AllDefined(o: Options, fs: set<Field>)
  {
    forall f :: f in fs ==> FieldValue(o, f).Some?
  }

  const OAuth2GmailService := "OAuth2Gmail"
  const SmtpService := "SMTP"

  /** The fields each of the three supported shapes demands. */
  const OAuth2GmailFields: set<Field> :=
    {Service, AuthType, User, FromAddress, ClientId, ClientSecret, RefreshToken, AccessToken}
  const SmtpFields: set<Field> := {User, Password, Host, Secure, FromAddress}
  const GenericFields: set<Field> := {User, Password, Service, FromAddress}

  /** The factory's construction errors, one per thrown message. */
  datatype ConfigError = MissingOptions | IncompleteOAuth2Gmail | IncompleteSmtp | UnsupportedOrIncomplete
  {
    function Message(): string
    {
      match this
      case MissingOptions => "SimpleParseSMTPAdapter requires adapter options"
      case IncompleteOAuth2Gmail =>
        "Gmail API Adapter requires service, type, fromAddress, user, clientId, clientSecret, refreshToken and accessToken"
      case IncompleteSmtp => "SimpleParseSMTPAdapter requires user, password, host and fromAddress"
      case UnsupportedOrIncomplete =>
        "SimpleParseSMTPAdapter please choose a supported service (OAuth2Gmail, SMTP, or other) and enter user, password and fromAddress"
    }
  }

  /** The factory's construction check: a falsy options object is refused, then the
      `service` option picks the shape whose fields must all be defined. */
  function Validate(opts: Option<Options>): (r: Result<(), ConfigError>)
    ensures opts.None? ==> r == Failure(MissingOptions)
    ensures opts.Some? && opts.value.service == Some(OAuth2GmailService) ==>
      (r.Success? <==> AllDefined(opts.value, OAuth2GmailFields))
      && (r.Failure? ==> r.error == IncompleteOAuth2Gmail)
    ensures opts.Some? && opts.value.service == Some(SmtpService) ==>
      (r.Success? <==> AllDefined(opts.value, SmtpFields))
      && (r.Failure? ==> r.error == IncompleteSmtp)
    ensures opts.Some? && opts.value.service != Some(OAuth2GmailService) && opts.value.service != Some(SmtpService) ==>
      (r.Success? <==> AllDefined(opts.value, GenericFields))
      && (r.Failure? ==> r.error == UnsupportedOrIncomplete)
  {
    if opts.None? then
      Failure(MissingOptions)
    else
      var o := opts.value;
      if o.service == Some(OAuth2GmailService) then
        if o.service.None? || o.authType.None? || o.user.None? || o.fromAddress.None?
           || o.clientId.None? || o.clientSecret.None? || o.refreshToken.None? || o.accessToken.None?
        then Failure(IncompleteOAuth2Gmail)
        else Success(())
      else if o.service == Some(SmtpService) then
        if o.user.None? || o.password.None? || o.host.None? || o.secure.None? || o.fromAddress.None?
        then Failure(IncompleteSmtp)
        else Success(())
      else
        if o.user.None? || o.password.None? || o.service.None? || o.fromAddress.None?
        then Failure(UnsupportedOrIncomplete)
        else Success(())
  }

  /** Every options object the factory accepts names a sender address. */
  lemma AcceptedOptionsHaveFromAddress(opts: Option<Options>)
    requires Validate(opts).Success?
    ensures opts.Some? && opts.value.fromAddress.Some?
  {
    assert FieldValue(opts.value, FromAddress) == opts.value.fromAddress;
  }

  /** An options object without a `service` is refused whatever else it holds. */
  lemma MissingServiceIsRefused(o: Options)
    requires o.service.None?
    ensures Validate(Some(o)) == Failure(UnsupportedOrIncomplete)
  {
  }

  /** Neither `port` nor `expires` is ever required, and `host` is not required for OAuth2 Gmail:
      changing them never changes the verdict. */
  lemma UncheckedOptionsDoNotMatter(o: Options, host: Option<string>, port: Option<string>, expires: Option<string>)
    ensures Validate(Some(o.(port := port, expires := expires))) == Validate(Some(o))
    ensures o.service == Some(OAuth2GmailService) ==> Validate(Some(o.(host := host))) == Validate(Some(o))
  {
  }
}

=== FILE: recipient.dfy ===
/** Where lifecycle emails are addressed (`getUserEmail`, index.js lines 82-90). */
module Recipient {
  import opened Wrappers
  import opened Js
  import opened AdapterOptions

  const UsernameAttribute := "username"

  /** The address of `user`: the attribute named by a truthy `emailField` option when one is
      configured, with no fallback; otherwise `email` when truthy, else `username`. */
  function GetUserEmail(o: Options, user: Record): (r: Option<string>)
    ensures Truthy(o.emailField) ==> r == Get(user, o.emailField.value)
    ensures !Truthy(o.emailField) && Truthy(Get(user, EmailAttribute)) ==> r == Some(user[EmailAttribute])
    ensures !Truthy(o.emailField) && !Truthy(Get(user, EmailAttribute)) ==> r == Get(user, UsernameAttribute)
    ensures r.Some? ==> r.value in user.Values
  {
    var email := Or(Get(user, EmailAttribute), Get(user, UsernameAttribute));
    if Truthy(o.emailField) then Get(user, o.emailField.value) else email
  }

  /** A configured `emailField` decides alone: two users that agree on that attribute get the
      same address, whatever their `email` and `username`. */
  lemma EmailFieldOverrides(o: Options, u1: Record, u2: Record)
    requires Truthy(o.emailField)
    requires Get(u1, o.emailField.value) == Get(u2, o.emailField.value)
    ensures GetUserEmail(o, u1) == GetUserEmail(o, u2)
  {
  }

  /** Without `emailField`, the user's attributes other than `email` and `username` never matter. */
  lemma OnlyEmailAndUsernameMatter(o: Options, u1: Record, u2: Record)
    requires !Truthy(o.emailField)
    requires Get(u1, EmailAttribute) == Get(u2, EmailAttribute)
    requires Get(u1, UsernameAttribute) == Get(u2, UsernameAttribute)
    ensures GetUserEmail(o, u1) == GetUserEmail(o, u2)
  {
  }

  /** A `workEmail` override wins over `email`; without an override `email` is used; an absent or
      empty `email` falls back to `username`; an override attribute the user lacks gives undefined. */
  lemma RecipientExamples(o: Options)
    requires o.emailField.None?
    ensures var u := map["workEmail" := "a@x.com", "email" := "b@x.com"];
      GetUserEmail(o.(emailField := Some("workEmail")), u) == Some("a@x.com")
      && GetUserEmail(o, u) == Some("b@x.com")
    ensures GetUserEmail(o, map["username" := "bob"]) == Some("bob")
    ensures GetUserEmail(o, map["email" := "", "username" := "bob"]) == Some("bob")
    ensures GetUserEmail(o.(emailField := Some("workEmail")), map["email" := "b@x.com"]).None?
  {
  }
}

=== FILE: templated.dfy ===
/** Rendering requests and the three templated entry points: `renderTemplate`,
    `sendMailWithTemplate`, `sendPasswordResetEmail` and `sendVerificationEmail`
    (index.js lines 133-161 and 219-327). */
module Templated {
  import opened Wrappers
  import opened Js
  import opened AdapterOptions
  import opened Recipient
  import opened Locale
  import opened Dispatch

  /** What the template engine renders: output name (`html`, `text`, `subject`) to string. */
  type Bundle = map<string, string>

  /** One call of the template engine: the template directory and, when i18n is configured,
      the locale installed as the engine's default. */
  datatype RenderRequest = RenderRequest(template: Option<string>, locale: Option<string>)

  /** A templated send: the render request it made, if any, and how the send ended. */
  datatype Attempt = Attempt(rendered: Option<RenderRequest>, outcome: SendOutcome)

  /** The argument of `sendMailWithTemplate`. */
  datatype TemplateData = TemplateData(
    to: Option<string>, subject: Option<string>, template: Option<string>,
    user: Option<Record>, locale: Option<string>)

  /** The argument Parse hands the lifecycle hooks: the user object and the action link. */
  datatype LifecycleData = LifecycleData(user: Record, link: Option<string>, locale: Option<string>)

  /** The two lifecycle events the adapter sends mail for. */
  datatype Lifecycle = PasswordReset | EmailVerification

  /** The subject a lifecycle email starts out with. */
  function DefaultSubject(k: Lifecycle): string
  {
    match k
    case PasswordReset => "Reset Password"
    case EmailVerification => "Verify Email"
  }

  /** The template configured for a lifecycle event, if any. */
  function TemplateFor(o: Options, k: Lifecycle): Option<TemplateSpec>
  {
    match o.templates
    case None => None
    case Some(t) => if k == PasswordReset then t.resetPassword else t.verifyEmail
  }

  /** `renderTemplate`: the request made of the engine. The locale is resolved only when i18n is
      configured, and a resolved locale is never empty, so it is always installed. */
  function RenderRequestFor(o: Options, template: Option<string>, user: Option<Record>,
                            locale: Option<string>, find: Option<string> -> Option<Record>): (req: RenderRequest)
    ensures req.template == template
    ensures o.i18n <==> req.locale.Some?
    ensures req.locale.Some? ==> |req.locale.value| > 0 && req.locale.value == GetUserLocale(user, locale, find)
  {
    var engineLocale := if o.i18n then Some(GetUserLocale(user, locale, find)) else None;
    RenderRequest(template, engineLocale)
  }

  /** The mail built from a rendered bundle: `html` and `text` always come from the bundle, and the
      subject is the bundle's when truthy, otherwise `fallback`. */
  function FromBundle(to: Option<string>, b: Bundle, fallback: Option<string>): (m: Mail)
    ensures m.to == to && m.html == Get(b, "html") && m.text == Get(b, "text")
    ensures Truthy(Get(b, "subject")) ==> m.subject == Some(b["subject"])
    ensures !Truthy(Get(b, "subject")) ==> m.subject == fallback
  {
    Mail(to, Or(Get(b, "subject"), fallback), Get(b, "html"), Get(b, "text"))
  }

  /** `sendMailWithTemplate`: without a truthy `template` the promise rejects with
      "Template variable not specified" and nothing is rendered or sent; otherwise the rendered
      bundle fills `html`, `text` and (when truthy) `subject`, and a render failure rejects
      without invoking a transport. */
  function SendMailWithTemplate(o: Options, d: TemplateData, find: Option<string> -> Option<Record>,
                                render: RenderRequest -> Result<Bundle, string>,
                                reply: Result<string, string>): (a: Attempt)
    ensures !Truthy(d.template) ==>
      a == Attempt(None, SendOutcome(Rejected(TemplateNotSpecified), None))
    ensures Truthy(d.template) ==>
      a.rendered == Some(RenderRequestFor(o, d.template, d.user, d.locale, find))
    ensures a.rendered.Some? && render(a.rendered.value).Failure? ==>
      a.outcome == SendOutcome(Rejected(RenderFailed(render(a.rendered.value).error)), None)
    ensures a.rendered.Some? && render(a.rendered.value).Success? ==>
      a.outcome == SendMail(o, FromBundle(d.to, render(a.rendered.value).value, d.subject), reply)
  {
    if Truthy(d.template) then
      var req := RenderRequestFor(o, d.template, d.user, d.locale, find);
      match render(req)
      case Failure(e) => Attempt(Some(req), SendOutcome(Rejected(RenderFailed(e)), None))
      case Success(b) => Attempt(Some(req), SendMail(o, FromBundle(d.to, b, d.subject), reply))
    else
      Attempt(None, SendOutcome(Rejected(TemplateNotSpecified), None))
  }

  /** The shared body of `sendPasswordResetEmail` and `sendVerificationEmail`. The recipient is the
      user's address. Without a template for the event, `text` is the link, there is no `html`, and
      the subject is the event's default. With one, the configured template is rendered for the
      user and the bundle fills `html` and `text`; its truthy subject wins, otherwise the
      configured subject replaces the default even when undefined. */
  function SendLifecycleEmail(o: Options, k: Lifecycle, d: LifecycleData,
                              find: Option<string> -> Option<Record>,
                              render: RenderRequest -> Result<Bundle, string>,
                              reply: Result<string, string>): (a: Attempt)
    ensures TemplateFor(o, k).None? ==>
      a == Attempt(None, SendMail(o, Mail(GetUserEmail(o, d.user), Some(DefaultSubject(k)), None, d.link), reply))
    ensures TemplateFor(o, k).Some? ==>
      a.rendered == Some(RenderRequestFor(o, TemplateFor(o, k).value.template, Some(d.user), d.locale, find))
    ensures a.rendered.Some? && render(a.rendered.value).Failure? ==>
      a.outcome == SendOutcome(Rejected(RenderFailed(render(a.rendered.value).error)), None)
    ensures a.rendered.Some? && render(a.rendered.value).Success? ==>
      a.outcome == SendMail(o, FromBundle(GetUserEmail(o, d.user), render(a.rendered.value).value,
                                          TemplateFor(o, k).value.subject), reply)
  {
    var to := GetUserEmail(o, d.user);
    match TemplateFor(o, k)
    case None => Attempt(None, SendMail(o, Mail(to, Some(DefaultSubject(k)), None, d.link), reply))
    case Some(spec) =>
      var req := RenderRequestFor(o, spec.template, Some(d.user), d.locale, find);
      match render(req)
      case Failure(e) => Attempt(Some(req), SendOutcome(Rejected(RenderFailed(e)), None))
      case Success(b) => Attempt(Some(req), SendMail(o, FromBundle(to, b, spec.subject), reply))
  }

  /** `sendPasswordResetEmail`: without a reset template the link is sent as plain text to the
      user's address under the subject "Reset Password". With one, the configured template is
      rendered in the user's locale; a render failure rejects, and a rendered bundle is sent with
      its truthy subject, else the configured one, so "Reset Password" is never used unless the
      bundle or the configured template supplies it. */
  function SendPasswordResetEmail(o: Options, d: LifecycleData, find: Option<string> -> Option<Record>,
                                  render: RenderRequest -> Result<Bundle, string>,
                                  reply: Result<string, string>): (a: Attempt)
    ensures TemplateFor(o, PasswordReset).None? ==>
      a == Attempt(None, SendMail(o, Mail(GetUserEmail(o, d.user), Some("Reset Password"), None, d.link), reply))
    ensures TemplateFor(o, PasswordReset).Some? ==>
      a.rendered == Some(RenderRequestFor(o, TemplateFor(o, PasswordReset).value.template, Some(d.user), d.locale, find))
    ensures a.rendered.Some? && render(a.rendered.value).Failure? ==>
      a.outcome == SendOutcome(Rejected(RenderFailed(render(a.rendered.value).error)), None)
    ensures a.rendered.Some? && render(a.rendered.value).Success? ==>
      a.outcome == SendMail(o, FromBundle(GetUserEmail(o, d.user), render(a.rendered.value).value,
                                          TemplateFor(o, PasswordReset).value.subject), reply)
  {
    SendLifecycleEmail(o, PasswordReset, d, find, render, reply)
  }

  /** `sendVerificationEmail`: without a verification template the link is sent as plain text to
      the user's address under the subject "Verify Email". With one, the configured template is
      rendered in the user's locale; a render failure rejects, and a rendered bundle is sent with
      its truthy subject, else the configured one, so "Verify Email" is never used unless the
      bundle or the configured template supplies it. */
  function SendVerificationEmail(o: Options, d: LifecycleData, find: Option<string> -> Option<Record>,
                                 render: RenderRequest -> Result<Bundle, string>,
                                 reply: Result<string, string>): (a: Attempt)
    ensures TemplateFor(o, EmailVerification).None? ==>
      a == Attempt(None, SendMail(o, Mail(GetUserEmail(o, d.user), Some("Verify Email"), None, d.link), reply))
    ensures TemplateFor(o, EmailVerification).Some? ==>
      a.rendered == Some(RenderRequestFor(o, TemplateFor(o, EmailVerification).value.template, Some(d.user), d.locale, find))
    ensures a.rendered.Some? && render(a.rendered.value).Failure? ==>
      a.outcome == SendOutcome(Rejected(RenderFailed(render(a.rendered.value).error)), None)
    ensures a.rendered.Some? && render(a.rendered.value).Success? ==>
      a.outcome == SendMail(o, FromBundle(GetUserEmail(o, d.user), render(a.rendered.value).value,
                                          TemplateFor(o, EmailVerification).value.subject), reply)
  {
    SendLifecycleEmail(o, EmailVerification, d, find, render, reply)
  }

  /** Every message a transport receives, on every entry point, is sent from `fromAddress`, and
      from a defined one once the factory has accepted the options. */
  lemma EveryMessageIsFromConfiguredAddress(o: Options, k: Lifecycle, ld: LifecycleData, td: TemplateData,
                                            find: Option<string> -> Option<Record>,
                                            render: RenderRequest -> Result<Bundle, string>,
                                            reply: Result<string, string>)
    requires Validate(Some(o)).Success?
    ensures var a := SendLifecycleEmail(o, k, ld, find, render, reply);
      a.outcome.call.Some? ==> a.outcome.call.value.envelope.from == o.fromAddress && o.fromAddress.Some?
    ensures var a := SendMailWithTemplate(o, td, find, render, reply);
      a.outcome.call.Some? ==> a.outcome.call.value.envelope.from == o.fromAddress && o.fromAddress.Some?
  {
    AcceptedOptionsHaveFromAddress(Some(o));
  }

  /** A lifecycle email with a configured template is a templated send addressed to the user,
      titled with the configured subject, rendering the configured template for the user, for a
      template engine that renders the same bundle for both calls' data. */
  lemma LifecycleIsTemplatedSend(o: Options, k: Lifecycle, d: LifecycleData,
                                 find: Option<string> -> Option<Record>,
                                 render: RenderRequest -> Result<Bundle, string>,
                                 reply: Result<string, string>)
    requires TemplateFor(o, k).Some? && Truthy(TemplateFor(o, k).value.template)
    ensures var spec := TemplateFor(o, k).value;
      SendLifecycleEmail(o, k, d, find, render, reply)
        == SendMailWithTemplate(o, TemplateData(GetUserEmail(o, d.user), spec.subject, spec.template,
                                                Some(d.user), d.locale), find, render, reply)
  {
  }

  /** With no templates and no blacklist, a reset whose link is "http://reset" reaches the
      transport with that link as its text and "Reset Password" as its subject. */
  lemma PasswordResetExample(o: Options, user: Record, find: Option<string> -> Option<Record>,
                             render: RenderRequest -> Result<Bundle, string>, reply: Result<string, string>)
    requires o.templates.None? && o.blacklistedDomains.None?
    ensures var a := SendPasswordResetEmail(o, LifecycleData(user, Some("http://reset"), None), find, render, reply);
      a.outcome.call.Some?
      && a.outcome.call.value.envelope.text == Some("http://reset")
      && a.outcome.call.value.envelope.subject == Some("Reset Password")
  {
  }
}

=== FILE: transport.dfy ===
/** Which of the three pre-built transports a send goes through (index.js lines 180-188). */
module Transport {
  import opened Wrappers
  import opened AdapterOptions

  datatype TransportKind = OAuth2GmailTransport | SmtpTransport | GenericTransport

  /** The transport `sendMail` hands every message to, decided by the `service` option alone. */
  function SelectTransport(o: Options): (k: TransportKind)
    ensures k == OAuth2GmailTransport <==> o.service == Some(OAuth2GmailService)
    ensures k == SmtpTransport <==> o.service == Some(SmtpService)
  {
    if o.service == Some(OAuth2GmailService) then OAuth2GmailTransport
    else if o.service == Some(SmtpService) then SmtpTransport
    else GenericTransport
  }

  /** The options the factory demands before the given transport may be selected. */
  function RequiredFields(k: TransportKind): set<Field>
  {
    match k
    case OAuth2GmailTransport => OAuth2GmailFields
    case SmtpTransport => SmtpFields
    case GenericTransport => GenericFields
  }

  /** Selection mirrors validation: the factory accepts an options object exactly when it
      defines every field of the transport that `sendMail` will later select. */
  lemma ValidationMatchesSelectedTransport(o: Options)
    ensures Validate(Some(o)).Success? <==> AllDefined(o, RequiredFields(SelectTransport(o)))
    ensures Validate(Some(o)).Success? && SelectTransport(o) == GenericTransport ==>
      o.service.Some? && o.service.value != OAuth2GmailService && o.service.value != SmtpService
  {
    if SelectTransport(o) == GenericTransport && Validate(Some(o)).Success? {
      assert FieldValue(o, Service) == o.service;
    }
  }
}

=== FILE: wrappers.dfy ===
/** `Option` and `Result`, shared by every module of the adapter model. */
module Wrappers {

  /** A value that may be missing; `None` plays the part of JavaScript's `undefined`. */
  datatype Option<+T> = None | Some(value: T)

  /** The value of an operation that either succeeds or fails with an error. */
  datatype Result<+R, +E> = Success(value: R) | Failure(error: E)
}
